=== FILE: README.md ===
# Pomodoro timer and task list — a Dafny model

This project models the logic of a browser Pomodoro widget. The widget has three parts:

- a countdown timer that alternates 25-minute work sessions with 5-minute breaks;
- a task list persisted in local storage;
- the page that ties them together. Clicking a task binds it to the timer and starts a work session. A finished work session adds a pomodoro to the bound task.

Every piece of component state is an immutable Dafny value. Every handler and effect body is a pure transition function.

| file | module | models |
|---|---|---|
| `wrappers.dfy` | `Wrappers` | `Option`, for `T \| undefined` and for parses that can fail |
| `text.dfy` | `Text` | `String.prototype.trim`, using the WhiteSpace and LineTerminator sets of the ECMAScript language specification (sections 12.2 and 12.3) |
| `digits.dfy` | `Digits` | `Number.prototype.toString()` on non-negative integers, `padStart(2, "0")`, and reading digits back |
| `clock.dfy` | `Clock` | `formatTime`, the `mm:ss` display, and a reader for it |
| `timer.dfy` | `Timer` | the timer component as a state machine: tick, completion, start/pause, reset, tab change, auto-start, progress |
| `tasks.dfy` | `Tasks` | the `Task` record, `addTask`, `deleteTask`, `updatePomodoroCount`, the storage slot and load-on-mount |
| `coordinator.dfy` | `Coordinator` | the page: `handleTaskStart`, the auto-start flag, `handleWorkSessionComplete` |
| `app.dfy` | `App` | the whole page: events, the order in which effects run, and the list on screen versus the stored list |

Modelling choices:

- **Ticks are explicit steps.** The one-second interval is `Timer.Tick`. The countdown effect that runs after each render is `Timer.Settle`. `App.Second` is one tick followed by that effect. Nothing models real time.
- **Completion fires at zero.** The countdown effect's `else if` reduces to "time left is zero", so a session completes whether or not the timer is marked active.
- **`timeLeft` is an `int`.** In the source it is a plain number. `0 <= timeLeft <= duration` is therefore a proved invariant (`Timer.Valid`), not a type fact.
- **Reset keeps the lifetime session count.** That is what this revision does.
- **Storage is abstract.** The slot (`Tasks.Slot`) is one of: no entry; the empty string, which is falsy and skipped like no entry; text that does not parse; or a stored task list. Parsing is `Tasks.Read`, which returns an `Option`.
- **The list on screen and the stored list are separate states.** The list component writes its in-memory list to storage after each of its own changes. The page's work-completion handler raises the count in storage only. `App.SessionCountsOnlyInStorage` and `App.NextChangeDropsIncrement` state what follows: the raised count is overwritten the next time the list changes, for example when another task's count is adjusted.
- **Effect dependencies are compared by value.** React compares the bound task by reference, and the flag, a boolean, by value. The model compares the bound task by value too.
- **Only what the code has is modelled.** `Task` has no `completed` field and the list has no completion toggle (`src/components/TodoList.tsx:6-11`). Reset keeps the session count (`src/components/PomodoroTimer.tsx:147-154`).

## Model

| member | source | states |
|---|---|---|
| Text.Trim | src/components/TodoList.tsx:43-46 | the trimmed text is a slice of the input with only whitespace around it, has no whitespace at either end, and is empty exactly when the input is all whitespace |
| Text.TrimUnique | src/components/TodoList.tsx:43-46 | any split of the input into whitespace, a trimmed string and whitespace determines the trim result |
| Text.TrimIdempotent | src/components/TodoList.tsx:43-46 | trimming twice equals trimming once |
| Digits.Decimal | src/components/PomodoroTimer.tsx:87-89 | `toString()` of a non-negative integer below 10^21 is a non-empty string of decimal digits with no leading zero (a lone "0" only for 0) |
| Digits.DecimalRoundTrip | src/components/PomodoroTimer.tsx:87-89 | reading `toString()` back as decimal gives the number |
| Digits.DecimalLength | src/components/PomodoroTimer.tsx:87-89 | one digit exactly below 10, at most two digits exactly below 100 |
| Digits.PadStart2 | src/components/PomodoroTimer.tsx:87-89 | `padStart(2, "0")` gives length max(2, input length), ends with the input, and adds only zeros before it |
| Digits.PadStart2Value | src/components/PomodoroTimer.tsx:87-89 | padding a digit string with zeros keeps its value |
| Clock.FormatTime | src/components/PomodoroTimer.tsx:84-90 | the display is at least five characters, with the colon third from the end |
| Clock.FormatTimeLength | src/components/PomodoroTimer.tsx:84-90 | the display is exactly five characters (`mm:ss`) when under 6000 seconds, and longer otherwise |
| Clock.FormatTimeRoundTrip | src/components/PomodoroTimer.tsx:84-90 | a reader that accepts only seconds fields below 60 reads the display back (minutes × 60 + seconds) as the number of seconds, so the fields are exactly the minutes and the remaining seconds |
| Clock.SessionDisplay | src/components/PomodoroTimer.tsx:84-90 | every time up to 1500 s displays as five characters, with a minute field of at most 25 |
| Clock.FieldLength | src/components/PomodoroTimer.tsx:85-89 | a padded field is exactly two characters when the number is below 100 |
| Clock.TwoDigitField | src/components/PomodoroTimer.tsx:85-89 | a field from 10 to 99 consists of its tens digit and its units digit |
| Timer.Tick | src/components/PomodoroTimer.tsx:127-129 | one firing of the interval; its contract is Timer.TickCountsDown (one second off a running timer with time left, a paused timer untouched) |
| Timer.Settle | src/components/PomodoroTimer.tsx:131-133 | the countdown effect's completion branch; its contract is Timer.WorkCompletion and Timer.BreakCompletionIsReset |
| Timer.SessionComplete | src/components/PomodoroTimer.tsx:92-122 | `handleSessionComplete`; its contract is Timer.WorkCompletion (work to break, count +1, report) and Timer.BreakCompletionIsReset (break to work) |
| Timer.StartPause | src/components/PomodoroTimer.tsx:139-145 | `handleStartPause`; its contract is Timer.StartPauseTwice (flips `isActive` and leaves every other field unchanged, so it is its own inverse) |
| Timer.Reset | src/components/PomodoroTimer.tsx:147-154 | `handleReset`; its contract is Timer.ResetFromAny (mount state with the count kept, idempotent) |
| Timer.TabChange | src/components/PomodoroTimer.tsx:156-162 | `handleTabChange`; its contract is Timer.TabChangeCases |
| Timer.AutoStart | src/components/PomodoroTimer.tsx:165-172 | the auto-start effect; its contract is Timer.AutoStartIsResetThenStart |
| Timer.Progress | src/components/PomodoroTimer.tsx:81-82 | the progress percentage; its contract is Timer.ProgressBounds and Timer.TickAdvancesProgress |
| Timer.Step | src/components/PomodoroTimer.tsx:92-172 | every transition of the component; its contract is Timer.StepPreservesValid, Timer.StepSessionCount and Timer.StepNotifies |
| Timer.Duration | src/components/PomodoroTimer.tsx:60-61 | a session lasts 1500 s (work) or 300 s (break), never zero |
| Timer.InitialValid | src/components/PomodoroTimer.tsx:74-78 | the mount state satisfies the invariant |
| Timer.StepPreservesValid | src/components/PomodoroTimer.tsx:92-172 | every transition keeps tab equal to session type and time left in [0, duration] |
| Timer.StepSessionCount | src/components/PomodoroTimer.tsx:92-133 | the session count rises by exactly one on completing a work session, and no other transition changes it |
| Timer.StepNotifies | src/components/PomodoroTimer.tsx:99-102 | the page is notified, with the bound task's id, exactly when a work session completes while a task is bound and a callback is supplied |
| Timer.TickCountsDown | src/components/PomodoroTimer.tsx:127-129 | a tick of a running timer with time left takes off exactly one second and changes nothing else; a paused timer is never decremented |
| Timer.WorkCompletion | src/components/PomodoroTimer.tsx:92-112 | completing work stops the timer, counts the session, switches session and tab to a full 300 s break, and reports the bound task |
| Timer.BreakCompletionIsReset | src/components/PomodoroTimer.tsx:113-121 | completing a break gives exactly the reset state (work, 1500 s, paused, count kept) and reports nothing |
| Timer.ResetFromAny | src/components/PomodoroTimer.tsx:147-154 | reset from any state gives the mount state with the lifetime count kept; the result is valid and a second reset changes nothing |
| Timer.StartPauseTwice | src/components/PomodoroTimer.tsx:139-145 | start/pause flips `isActive` and leaves every other field unchanged; it always changes the state, and applying it twice is the identity |
| Timer.TabChangeCases | src/components/PomodoroTimer.tsx:156-162 | a tab change while running is ignored; when paused, session type and tab become the chosen tab, time left becomes that tab's full duration (zero progress), the timer stays paused, the session count is kept, and the work tab acts as a reset |
| Timer.AutoStartIsResetThenStart | src/components/PomodoroTimer.tsx:165-172 | with a task bound and the flag raised, auto-start equals a reset followed by start, leaving a running, full work session with the count kept; otherwise it changes nothing |
| Timer.CountDown | src/components/PomodoroTimer.tsx:124-137 | before the last second, n seconds of a running session lower time left by n and report nothing |
| Timer.FullWorkSession | src/components/PomodoroTimer.tsx:124-137 | 1500 seconds of a started full work session give exactly one completion: count +1, a paused 300 s break, and the bound task reported once |
| Timer.ProgressBounds | src/components/PomodoroTimer.tsx:81-82 | under the invariant, progress lies in [0, 100]; it is 0 exactly at a full session and 100 exactly at zero time left |
| Timer.TickAdvancesProgress | src/components/PomodoroTimer.tsx:81-82 | each tick of a running timer raises progress by exactly 100/duration |
| Timer.DisplayFits | src/components/PomodoroTimer.tsx:246 | under the invariant, the displayed time is five characters `mm:ss` with seconds below 60, and reads back as the time left |
| Timer.DisplayExamples | src/components/PomodoroTimer.tsx:84-90 | 0 s shows "00:00" and 65 s shows "01:05" |
| Timer.FullSessionDisplays | src/components/PomodoroTimer.tsx:60-61 | a full work session shows "25:00" and a full break shows "05:00" |
| Tasks.LoadedIsSaved | src/components/TodoList.tsx:26-34 | a slot loads a list exactly when it holds what saving that list writes; empty, blank and unparseable slots load nothing |
| Tasks.Read | src/components/TodoList.tsx:27-33 | reading and parsing the stored list; its contract is Tasks.LoadedIsSaved |
| Tasks.Mount | src/components/TodoList.tsx:26-35 | the load-on-mount effect; its contract is Tasks.SaveThenMount, with the empty fallback stated by App.Mount |
| Tasks.Persist | src/components/TodoList.tsx:37-40 | reading back what was saved gives the same list |
| Tasks.SaveThenMount | src/components/TodoList.tsx:21-40 | saving a list and mounting again shows the same list, with the add-task input closed and empty |
| Tasks.AddTask | src/components/TodoList.tsx:42-53 | blank input changes nothing; other input appends one task at the end (given id, trimmed text, count 0), keeps every earlier task, and clears and closes the input |
| Tasks.AddedTextIsClean | src/components/TodoList.tsx:43-46 | an added task's text is non-empty, has no whitespace at either end, and is unchanged by trimming |
| Tasks.DeleteTask | src/components/TodoList.tsx:55-57 | the result holds no task with the id, and every other task as many times as before |
| Tasks.DeleteTaskKeepsOrder | src/components/TodoList.tsx:55-57 | deleting from a concatenation deletes from each part, so the remaining tasks keep their relative order |
| Tasks.DeleteAbsent | src/components/TodoList.tsx:55-57 | deleting an id that no task has leaves the list unchanged |
| Tasks.DeleteIdempotent | src/components/TodoList.tsx:55-57 | deleting the same id twice equals deleting it once |
| Tasks.MapCount | src/components/TodoList.tsx:60-64 | the shared `map`: same length, matching tasks get a new count, all others are unchanged |
| Tasks.UpdatePomodoroCount | src/components/TodoList.tsx:59-65 | length, order, ids, texts and non-matching tasks are kept; a matching task gets count + increment, clamped at 0, and is never negative |
| Tasks.UpdateKeepsNonNegative | src/components/TodoList.tsx:59-65 | counter updates keep every count non-negative |
| Tasks.DecrementAtZero | src/components/TodoList.tsx:59-65 | decrementing a task whose count is 0 leaves it unchanged, because the count is clamped at 0 |
| Tasks.IncrementThenDecrement | src/components/TodoList.tsx:59-65 | on non-negative counts, minus undoes plus |
| Coordinator.HandleTaskStart | src/pages/Index.tsx:9-11 | `handleTaskStart`; its contract is App.ClickBindsTask and App.ClickStartsWork |
| Coordinator.ExpireAutoStart | src/pages/Index.tsx:13 | the 100 ms callback lowering the flag; its contract is App.ExpireKeepsTimer |
| Coordinator.HandleWorkSessionComplete | src/pages/Index.tsx:16-40 | `handleWorkSessionComplete`; its contract is Coordinator.NoStoredListNoChange, Coordinator.StoredListIncremented, Coordinator.AbsentIdKeepsStorage and Coordinator.BoundTaskBumped |
| Coordinator.IncrementById | src/pages/Index.tsx:22-26 | every stored task with the id gets count + 1, unclamped; others, length and order are unchanged |
| Coordinator.NoStoredListNoChange | src/pages/Index.tsx:16-40 | with nothing stored, or unparseable text stored, neither storage nor the bound task changes |
| Coordinator.StoredListIncremented | src/pages/Index.tsx:21-27 | with a stored list, exactly the tasks with the id gain one pomodoro in storage |
| Coordinator.AbsentIdKeepsStorage | src/pages/Index.tsx:22-27 | an id that no stored task has leaves storage as it was |
| Coordinator.BoundTaskBumped | src/pages/Index.tsx:29-35 | the bound task gains one pomodoro exactly when a list was stored and its id matches; the flag never changes |
| Coordinator.IncrementIsPlusOne | src/pages/Index.tsx:22-26 | on non-negative counts, the page's increment equals the list's own plus button |
| App.Step | src/pages/Index.tsx:42-60 | the page wired together; its contract is App.StepPreservesValid and the App lemmas below |
| App.SetTasks | src/components/TodoList.tsx:37-40 | a list change followed by the save effect; its contract is App.ListChangeOverwritesStorage |
| App.Rerender | src/components/PomodoroTimer.tsx:165-172 | the auto-start effect re-run only when the page's props changed; its contract is App.ClickStartsWork and App.ExpireKeepsTimer |
| App.Mount | src/components/TodoList.tsx:25-40 | the mounted page is valid; the list is the stored one (or empty when none parses), and it is written straight back to storage |
| App.StepPreservesValid | src/pages/Index.tsx:42-60 | every event keeps the timer invariant, keeps a pending session above zero seconds, and keeps a stored list in the slot |
| App.ListChangeOverwritesStorage | src/components/TodoList.tsx:37-40 | each list change stores the list in memory, whatever storage held before |
| App.SessionCountsOnlyInStorage | src/pages/Index.tsx:16-27 | a finished work session raises the bound task's stored count, but the list on screen is unchanged |
| App.NextChangeDropsIncrement | src/components/TodoList.tsx:37-40 | right after a finished session, adjusting another task's count writes the bound task back to storage with the count it had before the session ended |
| App.ClickBindsTask | src/pages/Index.tsx:9-11 | a click binds the clicked task and raises the flag, leaves the list and storage alone, and an immediate second click of the same task changes nothing |
| App.ExpireKeepsTimer | src/pages/Index.tsx:13 | lowering the flag keeps the timer and the bound task, and a later click of any task starts a fresh work session again |
| App.ClickStartsWork | src/components/PomodoroTimer.tsx:165-172 | clicking a task binds it and, if the page's props changed, gives a reset and started timer (running, work, 1500 s left); with unchanged props the timer is untouched |

## Left out

- Sound: `playSound` and its three callers use the Web Audio API and timeouts. They are side effects that do not affect any state.
- Toast notifications, JSX, class names, the disabled attributes of the tab buttons and of the minus button, the circular progress ring and the session indicator: these are presentation only.
- Real time: `setInterval`, `clearInterval`, React's effect scheduling and the 100 ms timeout become explicit events (`App.Second`, `App.AutoStartExpired`).
- Local storage and JSON: both are host facilities. Storage is the abstract `Tasks.Slot`. JSON text that parses but is not a task array has no value in `Tasks.Slot`, so both of its behaviours are left out: at mount the list component stores the non-array and its render then fails on `tasks.map` (`src/components/TodoList.tsx:30`, `127`), while the page's completion handler fails inside its `try` and changes nothing (`src/pages/Index.tsx:22`, `36-38`).
- Task ids: `Date.now().toString()` is nondeterministic, so the id is a parameter of `Tasks.AddTask` and `App.SubmitDraft`.
- The optional `isActive` field of `Task`: no code reads or writes it.
- The Enter and Escape key handler and the input's change handler: these are keyboard and input plumbing. They appear only as the `SubmitDraft`, `CancelInput` and `EditDraft` events, which take effect only while the input is open.
- The `Adjust` event: it takes any increment and may be sent for a task at zero. On the page only ±1 arrives (`src/components/TodoList.tsx:162`, `179`), and the minus button is disabled at zero (`src/components/TodoList.tsx:166`). The model therefore over-approximates the events, and every Adjust rewrites storage even when the clamp leaves the list unchanged.
- Digits.Decimal: exact only below 10^21. From there on JavaScript writes numbers in exponential notation ("1e+21"), and above 2^53 a number is not an exact integer at all. The display never sees such values, because time left stays at most 1500 under the timer invariant.
- Clock.FormatTime: takes a `nat`. Under the timer invariant the source never formats a negative time, and JavaScript's `%` on negative numbers is not modelled.
- Timer.Progress: a `real`, which is exact. JavaScript computes a floating-point number, so rounding is not modelled.
- Timer.Run: the interval fires exactly once between renders. This holds because the effect clears and re-registers the interval whenever the time left changes.

=== FILE: app.dfy ===
/**
 The whole page: the coordinator, the timer, the task list component and the
 storage slot, driven by user actions and by the passing of seconds.

 The task list component and the storage slot are separate states here. The
 list writes its own in-memory list to storage after each change; the page
 writes incremented counts to storage only. Effects are run in the order the
 components declare them: after a second passes, the countdown effect, then
 (if the page's props changed) the auto-start effect.
 */
module App {
  import opened Wrappers
  import Text
  import Tasks
  import Timer
  import Coordinator

  datatype AppState = AppState(
    page: Coordinator.Page,
    timer: Timer.TimerState,
    list: Tasks.TodoList,
    storage: Tasks.Slot)

  /** Things that can happen on the page. `Second` is the timer's interval
      firing; `AutoStartExpired` is the page's 100 ms callback. `EditDraft`,
      `CancelInput` and `SubmitDraft` come from the add-task input and its
      buttons and keys, which are on screen only while the input is open. */
  datatype Event =
    | Second
    | StartPause
    | Reset
    | SelectTab(tab: Timer.SessionType)
    | ClickTask(index: nat)
    | AutoStartExpired
    | OpenInput
    | EditDraft(text: string)
    | CancelInput
    | SubmitDraft(id: string)
    | Delete(id: string)
    | Adjust(id: string, increment: int)

  /** The props the page passes to the timer; the page always supplies the
      completion callback. */
  function Props(page: Coordinator.Page): Timer.Props {
    Timer.Props(page.currentTask, page.autoStart, true)
  }

  /** The auto-start effect runs when the timer's props changed. */
  function Rerender(timer: Timer.TimerState, before: Coordinator.Page, after: Coordinator.Page): Timer.TimerState {
    if before != after then Timer.AutoStart(timer, Props(after)) else timer
  }

  /** Mounting with whatever storage holds: the list loads (or stays empty)
      and is written straight back by the save effect. */
  function Mount(storage: Tasks.Slot): (a: AppState)
    ensures Valid(a)
    ensures a.storage == Tasks.Persist(a.list.tasks)
    ensures storage.Saved? ==> a.list.tasks == storage.tasks
    ensures !storage.Saved? ==> a.list.tasks == []
  {
    var list := Tasks.Mount(storage);
    AppState(Coordinator.Initial, Timer.Initial, list, Tasks.Persist(list.tasks))
  }

  /** A task list change that calls `setTasks`: the save effect follows. */
  function SetTasks(a: AppState, list: Tasks.TodoList): AppState {
    a.(list := list, storage := Tasks.Persist(list.tasks))
  }

  function Step(a: AppState, e: Event): AppState {
    match e
    case Second =>
      var o := Timer.Settle(Timer.Tick(a.timer), Props(a.page));
      if o.notified.None? then a.(timer := o.state)
      else
        var c := Coordinator.HandleWorkSessionComplete(a.page, a.storage, o.notified.value);
        a.(page := c.page, storage := c.storage, timer := Rerender(o.state, a.page, c.page))
    case StartPause => a.(timer := Timer.StartPause(a.timer))
    case Reset => a.(timer := Timer.Reset(a.timer))
    case SelectTab(tab) => a.(timer := Timer.TabChange(a.timer, tab))
    case ClickTask(i) =>
      if i < |a.list.tasks| then
        var page := Coordinator.HandleTaskStart(a.page, a.list.tasks[i]);
        a.(page := page, timer := Rerender(a.timer, a.page, page))
      else a
    case AutoStartExpired =>
      var page := Coordinator.ExpireAutoStart(a.page);
      a.(page := page, timer := Rerender(a.timer, a.page, page))
    case OpenInput => a.(list := a.list.(adding := true))
    case EditDraft(text) =>
      if a.list.adding then a.(list := a.list.(draft := text)) else a
    case CancelInput =>
      if a.list.adding then a.(list := a.list.(adding := false, draft := "")) else a
    case SubmitDraft(id) =>
      if !a.list.adding || Text.AllSpace(a.list.draft) then a
      else SetTasks(a, Tasks.AddTask(a.list, id))
    case Delete(id) => SetTasks(a, a.list.(tasks := Tasks.DeleteTask(a.list.tasks, id)))
    case Adjust(id, increment) =>
      SetTasks(a, a.list.(tasks := Tasks.UpdatePomodoroCount(a.list.tasks, id, increment)))
  }

  /** What holds between events: the timer's invariant, a session never
      resting at zero (the countdown effect has always completed it), and a
      stored list in the slot (written on mount, and only ever rewritten). */
  predicate Valid(a: AppState) {
    && Timer.Valid(a.timer)
    && a.timer.timeLeft > 0
    && a.storage.Saved?
  }

  lemma StepPreservesValid(a: AppState, e: Event)
    requires Valid(a)
    ensures Valid(Step(a, e))
  {
  }

  /** Every change of the task list rewrites storage from the list in memory,
      whatever storage held before. */
  lemma ListChangeOverwritesStorage(a: AppState, e: Event)
    requires e.Delete? || e.Adjust? || (e.SubmitDraft? && a.list.adding && !Text.AllSpace(a.list.draft))
    ensures Step(a, e).storage == Tasks.Persist(Step(a, e).list.tasks)
  {
  }

  /** A finished work session raises the stored count of the bound task but
      not its count in the list on screen. */
  lemma SessionCountsOnlyInStorage(a: AppState, j: nat)
    requires Valid(a) && a.storage == Tasks.Persist(a.list.tasks)
    requires a.timer.isActive && a.timer.sessionType == Timer.Work && a.timer.timeLeft == 1
    requires j < |a.list.tasks| && a.page.currentTask.Some? && a.page.currentTask.value.id == a.list.tasks[j].id
    ensures Step(a, Second).list == a.list
    ensures Step(a, Second).storage.Saved?
    ensures Step(a, Second).storage.tasks[j].pomodoroCount == a.list.tasks[j].pomodoroCount + 1
  {
  }

  /** The next change to the list writes the list on screen back over the
      raised count: adjusting another task's count right after a finished
      work session stores the bound task as it was before the session ended. */
  lemma NextChangeDropsIncrement(a: AppState, j: nat, k: nat, increment: int)
    requires Valid(a) && a.storage == Tasks.Persist(a.list.tasks)
    requires a.timer.isActive && a.timer.sessionType == Timer.Work && a.timer.timeLeft == 1
    requires j < |a.list.tasks| && a.page.currentTask.Some? && a.page.currentTask.value.id == a.list.tasks[j].id
    requires k < |a.list.tasks| && a.list.tasks[k].id != a.list.tasks[j].id
    ensures var c := Step(Step(a, Second), Adjust(a.list.tasks[k].id, increment)).storage;
      c.Saved? && |c.tasks| == |a.list.tasks| && c.tasks[j] == a.list.tasks[j]
  {
    SessionCountsOnlyInStorage(a, j);
  }

  /** Clicking a task starts a fresh running work session unless the page's
      props are unchanged (the same task clicked while the flag is still
      up), in which case the effect does not run again. */
  lemma ClickStartsWork(a: AppState, i: nat)
    requires i < |a.list.tasks|
    ensures var b := Step(a, ClickTask(i));
      b.page == Coordinator.Page(Some(a.list.tasks[i]), true)
      && (b.page != a.page ==> b.timer == Timer.StartPause(Timer.Reset(a.timer)))
      && (b.page != a.page ==> b.timer.isActive && b.timer.sessionType == Timer.Work && b.timer.timeLeft == Timer.WorkTime)
      && (b.page == a.page ==> b.timer == a.timer)
  {
  }

  /** `handleTaskStart` through the list: a click binds the clicked task and
      raises the flag, touches neither the list nor storage, and clicking the
      same task again at once changes nothing more. */
  lemma ClickBindsTask(a: AppState, i: nat)
    requires i < |a.list.tasks|
    ensures var b := Step(a, ClickTask(i));
      && b.page.currentTask == Some(a.list.tasks[i]) && b.page.autoStart
      && b.list == a.list && b.storage == a.storage
      && Step(b, ClickTask(i)) == b
  {
  }

  /** Lowering the flag never restarts the timer and keeps the bound task;
      because it lowers the flag, clicking any task afterwards starts a fresh
      work session again. */
  lemma ExpireKeepsTimer(a: AppState, i: nat)
    requires i < |a.list.tasks|
    ensures var b := Step(a, AutoStartExpired);
      && b.timer == a.timer && b.page.currentTask == a.page.currentTask && !b.page.autoStart
      && Step(b, ClickTask(i)).timer == Timer.StartPause(Timer.Reset(a.timer))
  {
  }
}

=== FILE: clock.dfy ===
/**
 The timer's `mm:ss` display. Minutes are `Math.floor(seconds / 60)` and
 seconds `seconds % 60`, each written in decimal by `toString()` and padded on
 the left with "0" to two characters by `padStart(2, "0")`.
 */
module Clock {
  import opened Wrappers
  import opened Digits

  /** `formatTime(seconds)`: zero-padded minutes, a colon, zero-padded seconds.
      The seconds field is always two digits, so the colon is always third
      from the end. */
  function FormatTime(seconds: nat): (r: string)
    ensures |r| >= 5 && r[|r| - 3] == ':'
  {
    var sec := seconds % 60;
    FieldLength(sec);
    Join(Field(seconds / 60), Field(sec))
  }

  /** The display has the five characters of `mm:ss` exactly when it shows
      fewer than 100 minutes. */
  lemma FormatTimeLength(seconds: nat)
    ensures |FormatTime(seconds)| == 5 <==> seconds < 6000
  {
    SplitMinutes(seconds);
    FieldLength(seconds / 60);
    FieldLength(seconds % 60);
  }

  /** One field of the display: a number padded to at least two digits. */
  function Field(n: nat): (r: string)
    ensures |r| >= 2 && AllDigits(r)
  {
    PadStart2(Decimal(n))
  }

  lemma FieldLength(n: nat)
    ensures |Field(n)| == 2 <==> n < 100
  {
    DecimalLength(n);
  }

  function Join(mins: string, secs: string): (r: string)
    ensures |r| == |mins| + |secs| + 1 && r[|mins|] == ':'
    ensures r[..|mins|] == mins && r[|mins| + 1..] == secs
  {
    mins + ":" + secs
  }

  /** Reads an `m…m:ss` display back into a number of seconds. The seconds
      field must be below 60, so a number of seconds has only one display
      this reader accepts. */
  function ReadClock(display: string): Option<nat>
  {
    if |display| >= 4 && display[|display| - 3] == ':'
       && AllDigits(display[..|display| - 3]) && AllDigits(display[|display| - 2..])
       && ValueOf(display[|display| - 2..]) < 60
    then Some(ValueOf(display[..|display| - 3]) * 60 + ValueOf(display[|display| - 2..]))
    else None
  }

  /** Reading the display back recovers the number of seconds it shows. */
  lemma FormatTimeRoundTrip(seconds: nat)
    ensures ReadClock(FormatTime(seconds)) == Some(seconds)
  {
    var m, s := seconds / 60, seconds % 60;
    assert FormatTime(seconds) == Join(Field(m), Field(s));
    FieldsRoundTrip(m, s);
    SplitMinutes(seconds);
  }

  /** Minute and second fields, joined and read back. */
  lemma FieldsRoundTrip(m: nat, s: nat)
    requires s < 60
    ensures ReadClock(Join(Field(m), Field(s))) == Some(m * 60 + s)
  {
    FieldLength(s);
    FieldValue(m);
    FieldValue(s);
    ReadJoin(Field(m), Field(s));
  }

  /** The reader splits a joined display back into its two fields. */
  lemma ReadJoin(mins: string, secs: string)
    requires |mins| >= 2 && AllDigits(mins)
    requires |secs| == 2 && AllDigits(secs) && ValueOf(secs) < 60
    ensures ReadClock(Join(mins, secs)) == Some(ValueOf(mins) * 60 + ValueOf(secs))
  {
  }

  /** A field reads back as the number written into it. */
  lemma FieldValue(n: nat)
    ensures ValueOf(Field(n)) == n
  {
    DecimalRoundTrip(n);
    PadStart2Value(Decimal(n));
  }

  /** Every time a session can show (at most 25 minutes) displays as exactly
      five characters `mm:ss` whose minute field reads at most 25. */
  lemma SessionDisplay(seconds: nat)
    requires seconds <= 1500
    ensures |FormatTime(seconds)| == 5
    ensures ValueOf(FormatTime(seconds)[..2]) <= 25
  {
    FormatTimeLength(seconds);
    FormatTimeRoundTrip(seconds);
  }

  /** A field below 10 is a zero and the digit. */
  lemma OneDigitField(n: nat)
    requires n < 10
    ensures Field(n) == ['0', DigitChar(n)]
  {
  }

  /** A field from 10 to 99 is its tens digit and its units digit. */
  lemma TwoDigitField(n: nat)
    requires 10 <= n < 100
    ensures Field(n) == [DigitChar(n / 10), DigitChar(n % 10)]
  {
    assert Decimal(n) == Decimal(n / 10) + [DigitChar(n % 10)];
    assert Decimal(n / 10) == [DigitChar(n / 10)];
  }

  /** The display of `m` minutes and `s` seconds is the two fields joined. */
  lemma FormatTimeFields(seconds: nat, m: nat, s: nat)
    requires seconds == m * 60 + s && s < 60
    ensures FormatTime(seconds) == Join(Field(m), Field(s))
  {
    assert seconds / 60 == m && seconds % 60 == s;
  }

  /** Minutes and seconds split a count of seconds; fewer than 100 minutes is
      fewer than 6000 seconds. */
  lemma SplitMinutes(seconds: nat)
    ensures seconds % 60 < 60
    ensures seconds == (seconds / 60) * 60 + seconds % 60
    ensures seconds / 60 < 100 <==> seconds < 6000
  {
  }
}

=== FILE: coordinator.dfy ===
/**
 The page that wires the timer to the task list. It holds the task bound to
 the timer and the auto-start flag, binds a task when one is clicked, and on a
 finished work session adds a pomodoro to that task in storage. It writes the
 stored list directly: the task list component's own list is not touched.
 */
module Coordinator {
  import opened Wrappers
  import Tasks

  /** The page's state: the task bound to the timer, and whether the timer
      should start on its own. */
  datatype Page = Page(currentTask: Option<Tasks.Task>, autoStart: bool)

  const Initial := Page(None, false)

  /** `handleTaskStart`: bind the clicked task and raise the auto-start flag. */
  function HandleTaskStart(page: Page, task: Tasks.Task): Page
  {
    Page(Some(task), true)
  }

  /** The delayed callback that lowers the auto-start flag again; the bound
      task stays. */
  function ExpireAutoStart(page: Page): Page
  {
    page.(autoStart := false)
  }

  /** The `map` over the stored list: one more pomodoro for every task with
      the id, unclamped; other tasks, the length and the order stay. */
  function IncrementById(tasks: seq<Tasks.Task>, id: string): (r: seq<Tasks.Task>)
    ensures |r| == |tasks|
    ensures forall i :: 0 <= i < |r| && tasks[i].id != id ==> r[i] == tasks[i]
    ensures forall i :: 0 <= i < |r| && tasks[i].id == id ==>
      r[i].id == id && r[i].text == tasks[i].text && r[i].pomodoroCount == tasks[i].pomodoroCount + 1
  {
    Tasks.MapCount(tasks, id, c => c + 1)
  }

  /** One more pomodoro on a task. */
  function Bump(task: Tasks.Task): Tasks.Task {
    task.(pomodoroCount := task.pomodoroCount + 1)
  }

  /** What `handleWorkSessionComplete` leaves behind. */
  datatype Completed = Completed(page: Page, storage: Tasks.Slot)

  /** `handleWorkSessionComplete(taskId)`: when storage holds a list that
      parses, the list is written back with the task's count raised, and the
      bound task is bumped too if it is the one that finished. Otherwise
      nothing changes (an error is only logged). */
  function HandleWorkSessionComplete(page: Page, storage: Tasks.Slot, taskId: string): Completed {
    match Tasks.Read(storage)
    case None => Completed(page, storage)
    case Some(tasks) =>
      var page' :=
        if page.currentTask.Some? && page.currentTask.value.id == taskId
        then page.(currentTask := Some(Bump(page.currentTask.value)))
        else page;
      Completed(page', Tasks.Persist(IncrementById(tasks, taskId)))
  }

  /** With nothing stored, or unparseable text stored, neither storage nor the
      bound task changes. */
  lemma NoStoredListNoChange(page: Page, storage: Tasks.Slot, taskId: string)
    requires !storage.Saved?
    ensures HandleWorkSessionComplete(page, storage, taskId) == Completed(page, storage)
  {
  }

  /** With a stored list, exactly the stored tasks with the id gain one
      pomodoro; the stored list keeps its length, order and other tasks. */
  lemma StoredListIncremented(page: Page, storage: Tasks.Slot, taskId: string)
    requires storage.Saved?
    ensures var after := HandleWorkSessionComplete(page, storage, taskId).storage;
      && after.Saved? && |after.tasks| == |storage.tasks|
      && (forall i :: 0 <= i < |after.tasks| ==>
            after.tasks[i] == if storage.tasks[i].id == taskId then Bump(storage.tasks[i]) else storage.tasks[i])
  {
  }

  /** An id no stored task has leaves storage as it was. */
  lemma AbsentIdKeepsStorage(page: Page, storage: Tasks.Slot, taskId: string)
    requires storage.Saved?
    requires forall i :: 0 <= i < |storage.tasks| ==> storage.tasks[i].id != taskId
    ensures HandleWorkSessionComplete(page, storage, taskId).storage == storage
  {
    var r := IncrementById(storage.tasks, taskId);
    assert r == storage.tasks;
  }

  /** The bound task gains a pomodoro exactly when storage held a list and the
      bound task is the one that finished; the auto-start flag never changes. */
  lemma BoundTaskBumped(page: Page, storage: Tasks.Slot, taskId: string)
    ensures var p := HandleWorkSessionComplete(page, storage, taskId).page;
      && p.autoStart == page.autoStart
      && p.currentTask == if storage.Saved? && page.currentTask.Some? && page.currentTask.value.id == taskId
                          then Some(Bump(page.currentTask.value)) else page.currentTask
  {
  }

  /** On non-negative counts, the page's increment agrees with the task
      list's own plus button. */
  lemma IncrementIsPlusOne(tasks: seq<Tasks.Task>, id: string)
    requires Tasks.NonNegative(tasks)
    ensures IncrementById(tasks, id) == Tasks.UpdatePomodoroCount(tasks, id, 1)
  {
    var a, b := IncrementById(tasks, id), Tasks.UpdatePomodoroCount(tasks, id, 1);
    assert forall i :: 0 <= i < |a| ==> a[i] == b[i];
  }
}

=== FILE: digits.dfy ===
/**
 Decimal notation for non-negative integers, as `Number.prototype.toString()`
 writes it, and `String.prototype.padStart(2, "0")`.
 */
module Digits {

  predicate IsDigit(c: char) {
    '0' <= c <= '9'
  }

  predicate AllDigits(s: string) {
    forall i :: 0 <= i < |s| ==> IsDigit(s[i])
  }

  function DigitChar(d: nat): (c: char)
    requires d < 10
    ensures IsDigit(c)
  {
    ('0' as int + d) as char
  }

  function DigitValue(c: char): (d: nat)
    requires IsDigit(c)
    ensures d < 10
  {
    c as int - '0' as int
  }

  /** `n.toString()` for a non-negative integer: its decimal digits, most
      significant first, without leading zeros. */
  function Decimal(n: nat): (r: string)
    ensures 1 <= |r|
    ensures AllDigits(r)
    ensures r[0] == '0' ==> n == 0
  {
    if n < 10 then [DigitChar(n)]
    else Decimal(n / 10) + [DigitChar(n % 10)]
  }

  /** One digit below ten, at most two below a hundred. */
  lemma DecimalLength(n: nat)
    ensures |Decimal(n)| == 1 <==> n < 10
    ensures |Decimal(n)| <= 2 <==> n < 100
  {
    if n >= 10 {
      assert |Decimal(n)| == |Decimal(n / 10)| + 1;
      if n < 100 {
        assert n / 10 < 10;
      } else {
        assert n / 10 >= 10;
      }
    }
  }

  /** The number a string of decimal digits denotes. */
  function ValueOf(ds: string): nat
    requires AllDigits(ds)
  {
    if ds == [] then 0
    else ValueOf(ds[..|ds| - 1]) * 10 + DigitValue(ds[|ds| - 1])
  }

  /** Reading `toString()` back gives the number. */
  lemma {:induction false} DecimalRoundTrip(n: nat)
    ensures ValueOf(Decimal(n)) == n
  {
    if n >= 10 {
      var r := Decimal(n);
      assert r[..|r| - 1] == Decimal(n / 10);
      DecimalRoundTrip(n / 10);
    }
  }

  /** Leading zeros do not change the value of a digit string. */
  lemma {:induction false} LeadingZero(ds: string)
    requires AllDigits(ds)
    ensures AllDigits("0" + ds) && ValueOf("0" + ds) == ValueOf(ds)
  {
    var z := "0" + ds;
    if ds != [] {
      assert z[..|z| - 1] == "0" + ds[..|ds| - 1];
      LeadingZero(ds[..|ds| - 1]);
    }
  }

  /** `s.padStart(2, "0")`: left-pad with zeros to length two; strings of two or
      more characters are left alone. */
  function PadStart2(s: string): (r: string)
    ensures |r| == if |s| < 2 then 2 else |s|
    ensures r[|r| - |s|..] == s
    ensures forall i :: 0 <= i < |r| - |s| ==> r[i] == '0'
  {
    if |s| == 0 then "00"
    else if |s| == 1 then "0" + s
    else s
  }

  /** Padding a digit string keeps its value. */
  lemma PadStart2Value(ds: string)
    requires AllDigits(ds)
    ensures AllDigits(PadStart2(ds)) && ValueOf(PadStart2(ds)) == ValueOf(ds)
  {
    if |ds| == 0 {
      LeadingZero("0");
    } else if |ds| == 1 {
      LeadingZero(ds);
    }
  }
}

=== FILE: tasks.dfy ===
/**
 The task list component: the `Task` record, adding, deleting and re-counting
 tasks, and the storage slot the list is loaded from on mount and saved to
 after every change.
 */
module Tasks {
  import opened Wrappers
  import Text

  /** A task: its id (a timestamp string when created), its display text, and
      the number of pomodoros spent on it. The count is a plain number in the
      source, so nothing but the operations below keeps it non-negative. */
  datatype Task = Task(id: string, text: string, pomodoroCount: int)

  /** The component's state: the tasks, the text typed into the add-task
      input, and whether that input is open. */
  datatype TodoList = TodoList(tasks: seq<Task>, draft: string, adding: bool)

  /** The state before the stored list is loaded. */
  const Initial := TodoList([], "", false)

  /** What reading the storage key can give: no entry; the empty string, which
      is falsy and skipped like no entry; text that JSON parsing rejects; or a
      serialized task list. */
  datatype Slot = Missing | Blank | Unparseable | Saved(tasks: seq<Task>)

  /** Reading and parsing the stored list; `None` where the source keeps its
      current list (nothing stored, or a parse error caught and logged). */
  function Read(slot: Slot): Option<seq<Task>>
  {
    match slot
    case Saved(tasks) => Some(tasks)
    case _ => None
  }

  /** Serializing the list into the storage slot; reading it back gives the
      same list. */
  function Persist(tasks: seq<Task>): (slot: Slot)
    ensures Read(slot) == Some(tasks)
  {
    Saved(tasks)
  }

  /** The load-on-mount effect: the list starts empty and is replaced by the
      stored list only when there is one and it parses. */
  function Mount(slot: Slot): TodoList
  {
    match Read(slot)
    case Some(tasks) => Initial.(tasks := tasks)
    case None => Initial
  }

  /** A slot loads a list exactly when it is what saving that list writes:
      storage holds nothing else that reads as a list. */
  lemma LoadedIsSaved(slot: Slot, tasks: seq<Task>)
    ensures Read(slot) == Some(tasks) <==> slot == Persist(tasks)
  {
  }

  /** Saving a list and mounting again shows that list, with the add-task
      input closed and empty. */
  lemma SaveThenMount(tasks: seq<Task>)
    ensures Mount(Persist(tasks)).tasks == tasks
    ensures Mount(Persist(tasks)).draft == "" && !Mount(Persist(tasks)).adding
  {
  }

  /** `addTask`: a draft whose trimmed text is empty changes nothing; any other
      draft appends one task with the trimmed text and no pomodoros, then
      clears and closes the input. `id` stands for the creation timestamp. */
  function AddTask(list: TodoList, id: string): (r: TodoList)
    ensures Text.AllSpace(list.draft) ==> r == list
    ensures !Text.AllSpace(list.draft) ==>
      && |r.tasks| == |list.tasks| + 1
      && r.tasks[..|list.tasks|] == list.tasks
      && r.tasks[|list.tasks|] == Task(id, Text.Trim(list.draft), 0)
      && r.draft == "" && !r.adding
  {
    var text := Text.Trim(list.draft);
    if text == [] then list
    else TodoList(list.tasks + [Task(id, text, 0)], "", false)
  }

  /** A task added through `AddTask` has non-empty text with no whitespace at
      either end. */
  lemma AddedTextIsClean(list: TodoList, id: string)
    requires !Text.AllSpace(list.draft)
    ensures var t := AddTask(list, id).tasks[|list.tasks|];
      t.text != [] && Text.Trimmed(t.text) && Text.Trim(t.text) == t.text
  {
    Text.TrimIdempotent(list.draft);
  }

  /** `deleteTask`: keeps exactly the tasks whose id differs, each as many
      times as before. */
  function DeleteTask(tasks: seq<Task>, id: string): (r: seq<Task>)
    ensures |r| <= |tasks|
    ensures forall t :: t in r <==> t in tasks && t.id != id
    ensures forall t :: multiset(r)[t] == if t.id == id then 0 else multiset(tasks)[t]
  {
    if tasks == [] then []
    else
      var rest := DeleteTask(tasks[1..], id);
      assert tasks == [tasks[0]] + tasks[1..];
      assert multiset(tasks) == multiset{tasks[0]} + multiset(tasks[1..]);
      if tasks[0].id == id then rest
      else
        assert multiset([tasks[0]] + rest) == multiset{tasks[0]} + multiset(rest);
        [tasks[0]] + rest
  }

  /** Deleting works piecewise along the list, so the tasks that stay keep
      their relative order. */
  lemma {:induction false} DeleteTaskKeepsOrder(a: seq<Task>, b: seq<Task>, id: string)
    ensures DeleteTask(a + b, id) == DeleteTask(a, id) + DeleteTask(b, id)
  {
    if a == [] {
      assert a + b == b;
    } else {
      var ab := a + b;
      assert ab[0] == a[0] && ab[1..] == a[1..] + b;
      DeleteTaskKeepsOrder(a[1..], b, id);
      if a[0].id != id {
        calc {
          DeleteTask(ab, id);
          [a[0]] + DeleteTask(a[1..] + b, id);
          [a[0]] + (DeleteTask(a[1..], id) + DeleteTask(b, id));
          ([a[0]] + DeleteTask(a[1..], id)) + DeleteTask(b, id);
        }
      }
    }
  }

  /** Deleting an id no task has leaves the list as it is. */
  lemma {:induction false} DeleteAbsent(tasks: seq<Task>, id: string)
    requires forall i :: 0 <= i < |tasks| ==> tasks[i].id != id
    ensures DeleteTask(tasks, id) == tasks
  {
    if tasks != [] {
      DeleteAbsent(tasks[1..], id);
      assert DeleteTask(tasks, id) == [tasks[0]] + DeleteTask(tasks[1..], id);
      assert tasks == [tasks[0]] + tasks[1..];
    }
  }

  /** Deleting the same id twice is deleting it once. */
  lemma DeleteIdempotent(tasks: seq<Task>, id: string)
    ensures DeleteTask(DeleteTask(tasks, id), id) == DeleteTask(tasks, id)
  {
    var r := DeleteTask(tasks, id);
    assert forall i :: 0 <= i < |r| ==> r[i] in r;
    DeleteAbsent(r, id);
  }

  /** The `map` over the list shared by both counters: every task whose id is
      `id` gets its count replaced by `f` of it, all others stay as they are. */
  function MapCount(tasks: seq<Task>, id: string, f: int -> int): (r: seq<Task>)
    ensures |r| == |tasks|
    ensures forall i :: 0 <= i < |r| ==>
      r[i] == if tasks[i].id == id then tasks[i].(pomodoroCount := f(tasks[i].pomodoroCount)) else tasks[i]
  {
    if tasks == [] then []
    else
      var t := tasks[0];
      [if t.id == id then t.(pomodoroCount := f(t.pomodoroCount)) else t] + MapCount(tasks[1..], id, f)
  }

  /** `Math.max(0, count + increment)`. */
  function ClampedCount(count: int, increment: int): int {
    if count + increment < 0 then 0 else count + increment
  }

  /** `updatePomodoroCount`: the tasks with the id get their count moved by
      `increment` but not below zero; the list keeps its length and order and
      every other task, and no task changes its id or text. */
  function UpdatePomodoroCount(tasks: seq<Task>, id: string, increment: int): (r: seq<Task>)
    ensures |r| == |tasks|
    ensures forall i :: 0 <= i < |r| ==> r[i].id == tasks[i].id && r[i].text == tasks[i].text
    ensures forall i :: 0 <= i < |r| && tasks[i].id != id ==> r[i] == tasks[i]
    ensures forall i :: 0 <= i < |r| && tasks[i].id == id ==>
      && r[i].pomodoroCount >= 0
      && (r[i].pomodoroCount == tasks[i].pomodoroCount + increment
          || (r[i].pomodoroCount == 0 && tasks[i].pomodoroCount + increment < 0))
  {
    MapCount(tasks, id, c => ClampedCount(c, increment))
  }

  /** No task has a negative count. */
  predicate NonNegative(tasks: seq<Task>) {
    forall i :: 0 <= i < |tasks| ==> tasks[i].pomodoroCount >= 0
  }

  /** Counter updates never make a count negative. */
  lemma UpdateKeepsNonNegative(tasks: seq<Task>, id: string, increment: int)
    requires NonNegative(tasks)
    ensures NonNegative(UpdatePomodoroCount(tasks, id, increment))
  {
  }

  /** The minus button on a task with no pomodoros leaves it at zero. */
  lemma DecrementAtZero(tasks: seq<Task>, i: nat)
    requires i < |tasks| && tasks[i].pomodoroCount == 0
    ensures UpdatePomodoroCount(tasks, tasks[i].id, -1)[i] == tasks[i]
  {
  }

  /** On non-negative counts the minus button undoes the plus button. */
  lemma IncrementThenDecrement(tasks: seq<Task>, id: string)
    requires NonNegative(tasks)
    ensures UpdatePomodoroCount(UpdatePomodoroCount(tasks, id, 1), id, -1) == tasks
  {
    var r := UpdatePomodoroCount(UpdatePomodoroCount(tasks, id, 1), id, -1);
    assert forall i :: 0 <= i < |tasks| ==> r[i] == tasks[i];
  }
}

=== FILE: text.dfy ===
/**
 This module models `String.prototype.trim`, which the task list uses to clean
 up and to reject new task names. Trim removes, from both ends, the characters
 that the ECMAScript language specification classes as WhiteSpace (section 12.2)
 or LineTerminator (section 12.3).
 */
module Text {

  /** WhiteSpace or LineTerminator code points: tab, line feed, vertical tab,
      form feed, carriage return, space, no-break space, byte order mark, the
      other space separators (category Zs), line and paragraph separator. */
  predicate IsSpace(c: char) {
    var n := c as int;
    || n == 0x09 || n == 0x0A || n == 0x0B || n == 0x0C || n == 0x0D
    || n == 0x20 || n == 0xA0 || n == 0x1680
    || (0x2000 <= n <= 0x200A)
    || n == 0x2028 || n == 0x2029 || n == 0x202F || n == 0x205F
    || n == 0x3000 || n == 0xFEFF
  }

  predicate AllSpace(s: string) {
    forall i :: 0 <= i < |s| ==> IsSpace(s[i])
  }

  /** A string with no whitespace at either end; this is what trim produces. */
  predicate Trimmed(s: string) {
    s == [] || (!IsSpace(s[0]) && !IsSpace(s[|s| - 1]))
  }

  /** The length of the longest all-whitespace prefix of `s`. */
  function LeadingSpace(s: string): (k: nat)
    ensures k <= |s|
    ensures AllSpace(s[..k])
    ensures k < |s| ==> !IsSpace(s[k])
  {
    if |s| == 0 || !IsSpace(s[0]) then 0
    else
      var k := 1 + LeadingSpace(s[1..]);
      assert s[..k] == [s[0]] + s[1..][..k - 1];
      k
  }

  /** The length of the longest all-whitespace suffix of `s`. */
  function TrailingSpace(s: string): (k: nat)
    ensures k <= |s|
    ensures AllSpace(s[|s| - k..])
    ensures k < |s| ==> !IsSpace(s[|s| - 1 - k])
  {
    if |s| == 0 || !IsSpace(s[|s| - 1]) then 0
    else
      var init := s[..|s| - 1];
      var k := 1 + TrailingSpace(init);
      assert s[|s| - k..] == init[|init| - (k - 1)..] + [s[|s| - 1]];
      k
  }

  /** `s.trim()`: `s` with its leading and trailing whitespace removed. The
      result sits in `s` right after the leading whitespace, with only
      whitespace after it, and is empty exactly when `s` is all whitespace. */
  function Trim(s: string): (r: string)
    ensures Trimmed(r)
    ensures Flanked(s, LeadingSpace(s), r)
    ensures r == [] <==> AllSpace(s)
  {
    var lo := LeadingSpace(s);
    var hi := lo + |Core(s)|;
    TrimFlanked(s);
    TrimEmpty(s);
    s[lo..hi]
  }

  /** What is left after the leading whitespace. */
  function Rest(s: string): (rest: string)
  {
    s[LeadingSpace(s)..]
  }

  /** `Rest(s)` without its trailing whitespace. */
  function Core(s: string): (core: string)
    ensures Trimmed(core)
  {
    var rest := Rest(s);
    rest[..|rest| - TrailingSpace(rest)]
  }

  lemma TrimFlanked(s: string)
    ensures Flanked(s, LeadingSpace(s), Core(s))
  {
    var lo, rest := LeadingSpace(s), Rest(s);
    var hi := lo + |Core(s)|;
    assert rest[|rest| - TrailingSpace(rest)..] == s[hi..];
    assert s[lo..hi] == Core(s);
  }

  lemma TrimEmpty(s: string)
    ensures Core(s) == [] <==> AllSpace(s)
  {
    var lo := LeadingSpace(s);
    TrimFlanked(s);
    if Core(s) == [] {
      assert s == s[..lo] + s[lo..];
      AllSpaceConcat(s[..lo], s[lo..]);
    } else {
      assert s[lo] == Core(s)[0];
    }
  }

  /** `s` is `r` placed at offset `lo`, with only whitespace around it. */
  predicate Flanked(s: string, lo: nat, r: string)
  {
    && lo + |r| <= |s|
    && s[lo..lo + |r|] == r
    && AllSpace(s[..lo])
    && AllSpace(s[lo + |r|..])
  }

  lemma AllSpaceConcat(a: string, b: string)
    requires AllSpace(a) && AllSpace(b)
    ensures AllSpace(a + b)
  {
    forall i | 0 <= i < |a + b|
      ensures IsSpace((a + b)[i])
    {
      if i < |a| { assert (a + b)[i] == a[i]; } else { assert (a + b)[i] == b[i - |a|]; }
    }
  }

  /** Only one prefix of `s` is all whitespace and followed by a
      non-whitespace character or the end. */
  lemma StartUnique(s: string, a: nat, b: nat)
    requires a <= |s| && b <= |s|
    requires AllSpace(s[..a]) && (a < |s| ==> !IsSpace(s[a]))
    requires AllSpace(s[..b]) && (b < |s| ==> !IsSpace(s[b]))
    ensures a == b
  {

  }

  /** Only one suffix of `s` is all whitespace and preceded by a
      non-whitespace character or the start. */
  lemma EndUnique(s: string, a: nat, b: nat)
    requires a <= |s| && b <= |s|
    requires AllSpace(s[a..]) && (a > 0 ==> !IsSpace(s[a - 1]))
    requires AllSpace(s[b..]) && (b > 0 ==> !IsSpace(s[b - 1]))
    ensures a == b
  {

  }

  /** Trim is determined by its specification: any way of writing `s` as
      whitespace, then a trimmed string, then whitespace, yields that string. */
  lemma TrimUnique(s: string, lo: nat, r: string)
    requires Flanked(s, lo, r)
    requires Trimmed(r)
    ensures Trim(s) == r
  {
    if r == [] {
      FlankedEmpty(s, lo);
    } else {
      FlankedStart(s, lo, r);
      FlankedEnd(s, lo, r);
    }
  }

  /** Only whitespace around nothing is all whitespace. */
  lemma FlankedEmpty(s: string, lo: nat)
    requires Flanked(s, lo, [])
    ensures AllSpace(s)
  {
    assert s == s[..lo] + s[lo..];
    AllSpaceConcat(s[..lo], s[lo..]);
  }

  /** A non-empty trimmed string flanked by whitespace starts where the
      leading whitespace ends. */
  lemma FlankedStart(s: string, lo: nat, r: string)
    requires Flanked(s, lo, r) && Trimmed(r) && r != []
    ensures lo == LeadingSpace(s)
  {
    assert s[lo] == r[0];
    StartUnique(s, lo, LeadingSpace(s));
  }

  /** ... and ends where trim's result ends. */
  lemma FlankedEnd(s: string, lo: nat, r: string)
    requires Flanked(s, lo, r) && Trimmed(r) && r != []
    requires lo == LeadingSpace(s)
    ensures lo + |r| == LeadingSpace(s) + |Trim(s)|
  {
    var t := Trim(s);
    var k := LeadingSpace(s);
    assert s[lo] == r[0];
    assert t != [];
    assert s[lo + |r| - 1] == r[|r| - 1];
    assert s[k + |t| - 1] == t[|t| - 1];
    EndUnique(s, lo + |r|, k + |t|);
  }

  /** Trimming twice is trimming once. */
  lemma TrimIdempotent(s: string)
    ensures Trim(Trim(s)) == Trim(s)
  {
    var t := Trim(s);
    assert Flanked(t, 0, t);
    TrimUnique(t, 0, t);
  }
}

=== FILE: timer.dfy ===
/**
 The Pomodoro timer component as a state machine over immutable states.

 The component's five pieces of state form a `TimerState`. Each handler and
 each effect body becomes a pure transition: `Tick` is the callback of the
 one-second interval, `Settle` is the countdown effect that runs after every
 render (it either leaves the interval running or, at zero, completes the
 session), and `StartPause`, `Reset`, `TabChange` and `AutoStart` are the
 button handlers and the auto-start effect. Sounds and notifications are side
 effects with no bearing on the state and are not modelled.
 */
module Timer {
  import opened Wrappers
  import Tasks
  import Clock

  datatype SessionType = Work | Break

  /** 25 and 5 minutes, in seconds. */
  const WorkTime: nat := 25 * 60
  const BreakTime: nat := 5 * 60

  /** The length of a session of the given type. */
  function Duration(t: SessionType): (d: nat)
    ensures d > 0
    ensures d == WorkTime || d == BreakTime
  {
    if t == Work then WorkTime else BreakTime
  }

  /** The component's state. `timeLeft` is a plain number in the source. */
  datatype TimerState = TimerState(
    timeLeft: int,
    isActive: bool,
    sessionType: SessionType,
    sessionCount: nat,
    selectedTab: SessionType)

  /** The state the component mounts with. */
  const Initial := TimerState(WorkTime, false, Work, 0, Work)

  /** What the component keeps true: the highlighted tab is the running
      session's type, and the time left lies within that session's length. */
  predicate Valid(s: TimerState) {
    && s.selectedTab == s.sessionType
    && 0 <= s.timeLeft <= Duration(s.sessionType)
  }

  /** The props the page passes in: the bound task, the auto-start flag, and
      whether a work-completion callback was supplied. */
  datatype Props = Props(currentTask: Option<Tasks.Task>, autoStart: bool, notify: bool)

  /** A transition's new state and the task id, if any, the component reported
      to the page as having finished a work session for. */
  datatype Outcome = Outcome(state: TimerState, notified: Option<string>)

  /** The interval callback: it is only registered while the timer runs with
      time left, and then takes one second off. */
  function Tick(s: TimerState): TimerState {
    if s.isActive && s.timeLeft > 0 then s.(timeLeft := s.timeLeft - 1) else s
  }

  /** The countdown effect. While running with time left it (re)registers the
      interval and changes nothing; once the time left is zero it stops the
      timer and completes the session. */
  function Settle(s: TimerState, props: Props): Outcome {
    if s.isActive && s.timeLeft > 0 then Outcome(s, None)
    else if s.timeLeft == 0 then SessionComplete(s.(isActive := false), props)
    else Outcome(s, None)
  }

  /** `handleSessionComplete`: a finished work session is counted, reported for
      the bound task, and followed by a break; a finished break is followed by
      a work session. */
  function SessionComplete(s: TimerState, props: Props): Outcome {
    if s.sessionType == Work then
      Outcome(
        s.(sessionCount := s.sessionCount + 1, sessionType := Break, selectedTab := Break, timeLeft := BreakTime),
        if props.currentTask.Some? && props.notify then Some(props.currentTask.value.id) else None)
    else
      Outcome(s.(sessionType := Work, selectedTab := Work, timeLeft := WorkTime), None)
  }

  /** `handleStartPause`. */
  function StartPause(s: TimerState): TimerState {
    s.(isActive := !s.isActive)
  }

  /** `handleReset`: the lifetime session count is kept. */
  function Reset(s: TimerState): TimerState {
    s.(isActive := false, sessionType := Work, selectedTab := Work, timeLeft := WorkTime)
  }

  /** `handleTabChange`: ignored while the timer runs. */
  function TabChange(s: TimerState, tab: SessionType): TimerState {
    if s.isActive then s
    else s.(selectedTab := tab, sessionType := tab, timeLeft := Duration(tab))
  }

  /** The auto-start effect, run when the bound task or the flag changes. */
  function AutoStart(s: TimerState, props: Props): TimerState {
    if props.autoStart && props.currentTask.Some? then
      s.(isActive := true, sessionType := Work, selectedTab := Work, timeLeft := WorkTime)
    else s
  }

  /** Everything that can happen to the component. */
  datatype Event = TickEvent | SettleEvent | StartPauseEvent | ResetEvent
                 | TabEvent(tab: SessionType) | AutoStartEvent

  function Step(s: TimerState, props: Props, e: Event): Outcome {
    match e
    case TickEvent => Outcome(Tick(s), None)
    case SettleEvent => Settle(s, props)
    case StartPauseEvent => Outcome(StartPause(s), None)
    case ResetEvent => Outcome(Reset(s), None)
    case TabEvent(tab) => Outcome(TabChange(s, tab), None)
    case AutoStartEvent => Outcome(AutoStart(s, props), None)
  }

  /** The fraction of the session already elapsed, as a percentage. */
  function Progress(s: TimerState): real {
    var d := Duration(s.sessionType);
    ((d - s.timeLeft) as real / d as real) * 100.0
  }

  // ---------------------------------------------------------------------
  // The invariant

  lemma InitialValid()
    ensures Valid(Initial)
  {
  }

  /** Every transition keeps the tab and the session type in agreement and the
      time left within the session. */
  lemma StepPreservesValid(s: TimerState, props: Props, e: Event)
    requires Valid(s)
    ensures Valid(Step(s, props, e).state)
  {
  }

  /** The session count grows by one on the completion of a work session, and
      on no other transition changes. */
  lemma StepSessionCount(s: TimerState, props: Props, e: Event)
    ensures Step(s, props, e).state.sessionCount
         == s.sessionCount + (if e == SettleEvent && s.timeLeft == 0 && s.sessionType == Work then 1 else 0)
  {
  }

  /** The page hears of a finished work session exactly when one finishes
      with a task bound and a callback supplied, and hears that task's id. */
  lemma StepNotifies(s: TimerState, props: Props, e: Event)
    ensures Step(s, props, e).notified.Some? <==>
      e == SettleEvent && s.timeLeft == 0 && s.sessionType == Work && props.currentTask.Some? && props.notify
    ensures Step(s, props, e).notified.Some? ==> Step(s, props, e).notified.value == props.currentTask.value.id
  {
  }

  // ---------------------------------------------------------------------
  // Individual transitions

  /** A tick takes exactly one second off a running timer with time left and
      touches nothing else; a paused timer is never counted down. */
  lemma TickCountsDown(s: TimerState)
    ensures s.isActive && s.timeLeft > 0 ==>
      Tick(s).timeLeft == s.timeLeft - 1 && Tick(s).(timeLeft := s.timeLeft) == s
    ensures !s.isActive ==> Tick(s) == s
  {
  }

  /** Completing a work session stops the timer, counts the session, and sets
      up a full break on the break tab. */
  lemma WorkCompletion(s: TimerState, props: Props)
    requires Valid(s) && s.timeLeft == 0 && s.sessionType == Work
    ensures var r := Settle(s, props).state;
      && !r.isActive && r.sessionType == Break && r.selectedTab == Break
      && r.timeLeft == BreakTime && r.sessionCount == s.sessionCount + 1
    ensures Settle(s, props).notified == if props.currentTask.Some? && props.notify then Some(props.currentTask.value.id) else None
  {
  }

  /** Completing a break leaves the timer exactly as a reset would: a full,
      paused work session with the count unchanged, and nothing reported. */
  lemma BreakCompletionIsReset(s: TimerState, props: Props)
    requires s.timeLeft == 0 && s.sessionType == Break
    ensures Settle(s, props) == Outcome(Reset(s), None)
  {
  }

  /** Whatever the state, a reset gives the mount state with the lifetime
      session count kept; resetting again changes nothing. */
  lemma ResetFromAny(s: TimerState)
    ensures Reset(s) == Initial.(sessionCount := s.sessionCount)
    ensures Valid(Reset(s)) && Reset(Reset(s)) == Reset(s)
  {
  }

  /** Start/pause flips whether the timer runs and touches nothing else, so
      pressing it twice gives back the same state. */
  lemma StartPauseTwice(s: TimerState)
    ensures StartPause(s).isActive == !s.isActive && StartPause(s).(isActive := s.isActive) == s
    ensures StartPause(StartPause(s)) == s
    ensures StartPause(s) != s
  {
  }

  /** Tab changes are refused while running; when paused, choosing a tab
      sets up that tab's full session, still paused and with the session
      count kept (the work tab acts as a reset). */
  lemma TabChangeCases(s: TimerState, tab: SessionType)
    ensures s.isActive ==> TabChange(s, tab) == s
    ensures !s.isActive ==>
      var t := TabChange(s, tab);
      && t.sessionType == tab && t.selectedTab == tab && t.timeLeft == Duration(tab)
      && !t.isActive && t.sessionCount == s.sessionCount
      && Valid(t) && Progress(t) == 0.0
    ensures !s.isActive ==> TabChange(s, Work) == Reset(s)
  {
  }

  /** With a task bound and the flag set, auto-start is a reset followed by a
      press of start; otherwise it does nothing. */
  lemma AutoStartIsResetThenStart(s: TimerState, props: Props)
    ensures props.autoStart && props.currentTask.Some? ==> AutoStart(s, props) == StartPause(Reset(s))
    ensures props.autoStart && props.currentTask.Some? ==>
      var t := AutoStart(s, props);
      && t.isActive && t.sessionType == Work && t.selectedTab == Work && t.timeLeft == WorkTime
      && t.sessionCount == s.sessionCount
    ensures !(props.autoStart && props.currentTask.Some?) ==> AutoStart(s, props) == s
  {
  }

  // ---------------------------------------------------------------------
  // Running sessions

  /** The final state of a run and every task id reported along it. */
  datatype Trace = Trace(state: TimerState, notified: seq<string>)

  /** `n` seconds of the component: each second the interval fires and the
      countdown effect runs on the re-rendered state. */
  function Run(s: TimerState, props: Props, n: nat): Trace {
    if n == 0 then Trace(s, [])
    else
      var before := Run(s, props, n - 1);
      var o := Settle(Tick(before.state), props);
      Trace(o.state, before.notified + (if o.notified.Some? then [o.notified.value] else []))
  }

  /** Until the last second, a running session only counts down. */
  lemma {:induction false} CountDown(s: TimerState, props: Props, n: nat)
    requires s.isActive && n < s.timeLeft
    ensures Run(s, props, n) == Trace(s.(timeLeft := s.timeLeft - n), [])
  {
    if n > 0 {
      CountDown(s, props, n - 1);
    }
  }

  /** Starting a full work session and letting it run for 25 minutes gives
      exactly one completion: the session is counted once, a paused full
      break follows, and the bound task (if any) is reported once. */
  lemma FullWorkSession(s: TimerState, props: Props)
    requires Valid(s) && s.isActive && s.sessionType == Work && s.timeLeft == WorkTime
    ensures Run(s, props, WorkTime).state
         == s.(isActive := false, sessionType := Break, selectedTab := Break,
               timeLeft := BreakTime, sessionCount := s.sessionCount + 1)
    ensures Run(s, props, WorkTime).notified
         == if props.currentTask.Some? && props.notify then [props.currentTask.value.id] else []
  {
    CountDown(s, props, WorkTime - 1);
  }

  // ---------------------------------------------------------------------
  // Progress

  /** Within the invariant, progress is a percentage; it is 0 exactly at the
      start of a session and 100 exactly at its end. */
  lemma ProgressBounds(s: TimerState)
    requires Valid(s)
    ensures 0.0 <= Progress(s) <= 100.0
    ensures Progress(s) == 0.0 <==> s.timeLeft == Duration(s.sessionType)
    ensures Progress(s) == 100.0 <==> s.timeLeft == 0
  {
    var d := Duration(s.sessionType) as real;
    var e := (Duration(s.sessionType) - s.timeLeft) as real;
    assert 0.0 <= e <= d;
    assert Progress(s) == (e / d) * 100.0;
    assert e / d <= 1.0;
    assert e / d == 1.0 ==> e == d;
  }

  /** Each tick of a running timer advances progress by one second's share. */
  lemma TickAdvancesProgress(s: TimerState)
    requires s.isActive && s.timeLeft > 0
    ensures Progress(Tick(s)) == Progress(s) + 100.0 / Duration(s.sessionType) as real
  {
    var d := Duration(s.sessionType) as real;
    var e := (Duration(s.sessionType) - s.timeLeft) as real;
    assert Progress(Tick(s)) == ((e + 1.0) / d) * 100.0;
  }

  // ---------------------------------------------------------------------
  // Display

  /** Within the invariant the display always reads as five characters,
      `mm:ss`, and reads back as the time left. */
  lemma DisplayFits(s: TimerState)
    requires Valid(s)
    ensures |Clock.FormatTime(s.timeLeft)| == 5
    ensures Clock.ReadClock(Clock.FormatTime(s.timeLeft)) == Some(s.timeLeft)
  {
    Clock.SessionDisplay(s.timeLeft);
    Clock.FormatTimeRoundTrip(s.timeLeft);
  }

  /** The display of a finished session and of 65 seconds. */
  lemma DisplayExamples()
    ensures Clock.FormatTime(0) == "00:00"
    ensures Clock.FormatTime(65) == "01:05"
  {
    ShowsZero();
    ShowsSixtyFive();
  }

  lemma ShowsZero()
    ensures Clock.FormatTime(0) == "00:00"
  {
    Clock.OneDigitField(0);
    Clock.FormatTimeFields(0, 0, 0);
    assert Clock.Field(0) == "00";
  }

  lemma ShowsSixtyFive()
    ensures Clock.FormatTime(65) == "01:05"
  {
    Clock.OneDigitField(1);
    Clock.OneDigitField(5);
    Clock.FormatTimeFields(65, 1, 5);
    assert Clock.Field(1) == "01";
    assert Clock.Field(5) == "05";
  }

  /** A full work session shows "25:00" and a full break "05:00". */
  lemma FullSessionDisplays()
    ensures Clock.FormatTime(Duration(Work)) == "25:00"
    ensures Clock.FormatTime(Duration(Break)) == "05:00"
  {
    ShowsWorkTime();
    ShowsBreakTime();
  }

  lemma ShowsWorkTime()
    ensures Clock.FormatTime(1500) == "25:00"
  {
    Clock.TwoDigitField(25);
    Clock.OneDigitField(0);
    Clock.FormatTimeFields(1500, 25, 0);
    assert Clock.Field(25) == "25";
    assert Clock.Field(0) == "00";
  }

  lemma ShowsBreakTime()
    ensures Clock.FormatTime(300) == "05:00"
  {
    Clock.OneDigitField(5);
    Clock.OneDigitField(0);
    Clock.FormatTimeFields(300, 5, 0);
    assert Clock.Field(5) == "05";
    assert Clock.Field(0) == "00";
  }
}

=== FILE: wrappers.dfy ===
/** Optional values: `T | undefined` in the component props, and parses that can fail. */
module Wrappers {

  datatype Option<+T> = None | Some(value: T)
}
